=== FILE: README.md ===
# WALL-E robot controller in Dafny

A model of the reactive controller of the `Robot` agent (`src/backpack/Robot.java`)
of a Simbad robot simulation. Each tick the controller turns one sensor
snapshot into actuator effects: a rotational velocity, a translational velocity,
an optional discrete heading snap, and a new value of the `isTracingLine` flag,
the only controller state carried from tick to tick.

Modules, leaf first:

- `Numerics` — the constant pi and the host's `cos`, `sin`, `atan`, `atan2`
  and square root, passed in as a record of functions. `CosRange`, `SoundCircular` (cos, sin, square root)
  and `SoundArc` (atan, atan2) list the properties of those functions that
  some lemmas rely on.
- `Angles` — `WrapToPi`, the one-step reduction into (-pi, pi].
- `Actuation` — the net `Effect` of a tick's actuator calls, with `Then`
  for calls made one after another (a later velocity replaces an earlier one
  and turns add up), and `Apply`, which applies an effect to the two
  velocities the simulator keeps and to a running total of discrete turns.
- `Phototaxis` — light seeking from the two averaged luminances.
- `LineFollower` — the loop that counts hits over the two mirrored halves of
  the line-sensor array, the four-way decision on those counts, and the
  fallback to light seeking.
- `Obstacle` — the nearest-sonar scan, the sensed point, the tangent
  direction and the circumnavigation law.
- `Arbiter` — `performBehavior`: the goal-lux stop, line following, the
  obstacle override, start-up, and runs of many ticks.

Java `double` and `float` arithmetic is modelled by Dafny `real`. Every
trigonometric value is whatever the host function returns.

## Model

| member | source | states |
|---|---|---|
| Angles.WrapToPi | src/backpack/Robot.java:123-129 | the result differs from the input by 0, 2pi or -2pi; it lies in (-pi, pi] whenever the input lies in (-3pi, 3pi]; it is the identity on (-pi, pi] |
| Angles.WrapToPiUnique | src/backpack/Robot.java:123-129 | on (-3pi, 3pi], the wrapped angle is the only canonical angle among a, a-2pi and a+2pi |
| Angles.WrapToPiIdempotent | src/backpack/Robot.java:123-129 | wrapping twice gives the same result as wrapping once on (-3pi, 3pi] |
| Angles.WrapToPiEnds | src/backpack/Robot.java:123-129 | pi is kept and -pi becomes pi, so the range is half-open; pi+0.1 wraps to -pi+0.1 and -pi-0.1 wraps to pi-0.1 |
| Angles.WrapToPiUnderCorrects | src/backpack/Robot.java:123-129 | outside (-3pi, 3pi] one step is not enough: 4pi comes back as 2pi, which is not canonical |
| Actuation.Then | src/backpack/Robot.java:65-71 | no contract of its own: actuator calls made one after another, as the line follower's calls followed by the avoider's (65 then 69) or the cruise speed (65 then 71); ApplyThen states what it means |
| Actuation.Apply | src/backpack/Robot.java:89-104 | defines the actuator semantics rather than proving a property: a velocity setter replaces that velocity, `rotateY` adds its angle to the turn total, and an absent call leaves the field alone |
| Actuation.ApplyThen | src/backpack/Robot.java:89-104 | composing two effects with `Then` and applying the result gives the same actuator state as applying them one after the other |
| Phototaxis.PhototaxisRate | src/backpack/Robot.java:111-115 | the light-seeking rate is positive, negative or zero exactly when the left averaged luminance is above, below or equal to the right one |
| Phototaxis.FollowTheLight | src/backpack/Robot.java:111-115 | light seeking sets only the rotational velocity, to the light-seeking rate |
| Phototaxis.PhototaxisAntisymmetric | src/backpack/Robot.java:111-115 | swapping the two light sensors negates the rate |
| Phototaxis.PhototaxisBounded | src/backpack/Robot.java:111-115 | for luminances in [0, 1] the rate lies in [-pi/4, pi/4] |
| Phototaxis.PhototaxisExample | src/backpack/Robot.java:111-115 | left luminance 0.8 against right 0.2 gives 0.6 * pi/4 |
| LineFollower.HalfCounts | src/backpack/Robot.java:81-87 | after i iterations of the counting loop, k is i and both hit counters are between 0 and k |
| LineFollower.Sense | src/backpack/Robot.java:81-87 | once the loop ends, k = M/2 (integer division) and 0 <= left, right <= k |
| LineFollower.HalfCountsCountHits | src/backpack/Robot.java:81-87 | the left counter is the number of hits among the first k sensors and the right counter the number among the last k |
| LineFollower.FollowTheLine | src/backpack/Robot.java:80-105 | line following never sets the translational velocity, and a tick that ends with the flag false is exactly light seeking; the new flag is true iff the counts differ, or they are equal and nonzero and either left+right > M-3 or the old flag was true; no rotational velocity is commanded iff the counts are equal and nonzero and either the marking is wide or the old flag was true; any turn is pi/4 or -pi/4 |
| LineFollower.LineSteerBounds | src/backpack/Robot.java:89-90 | when left != right, (left-right)/k*5 lies in [-5, 5] and its sign is the sign of left-right |
| LineFollower.Classify | src/backpack/Robot.java:89-101 | no contract of its own: the order of the four tests; the case lemmas below (AsymmetricSteers, LostSeeksLight, WideSnaps, SymmetricPartialKeepsFlag) and FollowTheLine's contract state what each case does |
| LineFollower.LineSteer | src/backpack/Robot.java:90 | no contract of its own: the steering value (left-right)/k*5; LineSteerBounds states its range and sign, LineSteerSwap its antisymmetry |
| LineFollower.SnapAngle | src/backpack/Robot.java:96-99 | no contract of its own: the snap angle; WideSnaps and FollowTheLine's contract state that it is -pi/4 exactly when the right average luminance is higher and +pi/4 otherwise |
| LineFollower.Decide | src/backpack/Robot.java:89-101 | no contract of its own: the four-way decision before the light-seeking fallback; FollowTheLine's contract and the case lemmas carry it |
| LineFollower.AsymmetricSteers | src/backpack/Robot.java:89-91 | with unequal counts the only effect is the rotational command (left-right)/k*5; it lies in [-5, 5], is positive exactly when left > right and negative exactly when left < right; no turn, and the flag becomes true |
| LineFollower.LostSeeksLight | src/backpack/Robot.java:92-104 | with no hits the flag becomes false and the only effect is the light-seeking rotational velocity; the 0 set first is overwritten |
| LineFollower.WideSnaps | src/backpack/Robot.java:95-100 | with equal nonzero counts and left+right > M-3 the heading snaps by -pi/4 when the right average luminance is higher and by +pi/4 otherwise; the flag becomes true and no rotational velocity is commanded |
| LineFollower.SymmetricPartialKeepsFlag | src/backpack/Robot.java:89-104 | with equal nonzero counts and left+right <= M-3 the flag keeps its old value; the robot seeks light if the old value was false and does nothing otherwise |
| LineFollower.InheritedFlagMattersOnlyWhenSymmetricPartial | src/backpack/Robot.java:89-104 | outside the symmetric partial case the tick does not depend on the inherited flag |
| LineFollower.MirrorSwapsCounts | src/backpack/Robot.java:83-87 | reading the array in reverse swaps the left and right counters |
| LineFollower.MirrorReversesSteering | src/backpack/Robot.java:83-90 | a mirrored array with unequal counts produces the opposite steering command |
| LineFollower.AsymmetricExample | src/backpack/Robot.java:81-91 | eight sensors with 3 hits on the left and 1 on the right steer at 2.5 |
| LineFollower.WideExample | src/backpack/Robot.java:81-100 | eleven sensors with ten hits form a wide marking, and with the right side brighter the heading snaps by -pi/4 |
| Obstacle.NearestFrom | src/backpack/Robot.java:157-162 | the scan ends at an index whose measurement is no larger than any other and strictly smaller than every earlier one |
| Obstacle.Nearest | src/backpack/Robot.java:157-162 | the selected index is in 0..N-1, its measurement is <= every measurement, and every earlier index has a strictly larger one (first occurrence on ties) |
| Obstacle.FirstMinimumUnique | src/backpack/Robot.java:157-162 | the first minimum is unique, so the selection depends only on the measurements |
| Obstacle.StrictMinimumSelected | src/backpack/Robot.java:157-162 | a sonar strictly nearer than all others is the one selected |
| Obstacle.SensedRange | src/backpack/Robot.java:139-143 | no contract of its own: the radius plus the measurement on a hit, plus the maximum range otherwise; SensedPointDistance and CircumNavigateDistance state what it is the distance of |
| Obstacle.SensedPoint | src/backpack/Robot.java:138-147 | the sensed point lies in the horizontal plane; its distance from the centre is stated by SensedPointDistance |
| Obstacle.Distance | src/backpack/Robot.java:165 | no contract of its own: the host square root of the squared length, as `Point3d.distance` from the origin; SensedPointDistance states its value on the sensed point |
| Obstacle.SensedPointDistance | src/backpack/Robot.java:138-147 | assuming only cos in [-1, 1], cos^2 + sin^2 = 1 and an exact square root (no atan fact), for a non-negative sensed range (radius plus measurement on a hit, radius plus maximum range otherwise), the sensed point lies at exactly that distance from the robot's centre |
| Obstacle.Tangent | src/backpack/Robot.java:167 | the tangent lies in the horizontal plane, is perpendicular to the radial vector, and has the planar length of that vector |
| Obstacle.TangentGeometry | src/backpack/Robot.java:167 | the clockwise and counter-clockwise tangents are negations of each other; each is perpendicular to the planar radial vector and has the same length |
| Obstacle.RestoringTerm | src/backpack/Robot.java:169-172 | no contract of its own: atan(K3*(d-SAFETY)), negated when clockwise; RestoringTermSign states its range, antisymmetry and sign |
| Obstacle.RestoringTermSign | src/backpack/Robot.java:169-172 | for any atan with the documented range [-Math.PI/2, Math.PI/2] (the extreme Math.PI/2 included) and the sign of its argument, the restoring term lies in that range; the clockwise term is the negated counter-clockwise term; beyond the standoff distance it is positive counter-clockwise and negative clockwise, and inside it the signs flip |
| Obstacle.ReferenceHeading | src/backpack/Robot.java:164-174 | for any atan and atan2 within their documented closed ranges, extremes Math.PI/2 and Math.PI included, the commanded heading is canonical, in (-Math.PI, Math.PI] |
| Obstacle.CircumNavigate | src/backpack/Robot.java:156-178 | circumnavigation sets both velocities and makes no discrete turn |
| Obstacle.CircumNavigateBounded | src/backpack/Robot.java:168-177 | assuming only cos in [-1, 1] and atan and atan2 within their documented closed ranges (atan2 may return Math.PI itself), all of which double results meet, the wrapped heading is in (-pi, pi] because the sum it wraps lies within [-3pi/2, 3pi/2], inside the range one wrapping step handles; so the rotational command is in (-5pi, 5pi] and the translational command in [-0.8, 0.8] |
| Obstacle.CircumNavigateDistance | src/backpack/Robot.java:138-165 | assuming only the cos, sin and square-root facts, the distance that drives the restoring term is the radius plus the nearest sonar's measurement on a hit, and the radius plus the maximum range otherwise |
| Arbiter.WeighLux | src/backpack/Robot.java:183-185 | the weighed lux is the midpoint of the two instantaneous lux readings |
| Arbiter.InitBehavior | src/backpack/Robot.java:51-53 | start-up sets the translational velocity to 0.5 and changes nothing else |
| Arbiter.GoalReached | src/backpack/Robot.java:62 | no contract of its own: the weighed lux is at least 0.06; GoalStops, GoalExample and PerformBehavior's contract state what follows |
| Arbiter.OneHasHit | src/backpack/Robot.java:67 | no contract of its own: some sonar of the ring has a hit, the host's `oneHasHit`; it is half of ObstacleNear |
| Arbiter.ObstacleNear | src/backpack/Robot.java:67 | no contract of its own: the obstacle gate; AvoiderOverrides, NearObstacleCruises, UnobstructedFollowsLine and PerformBehavior's contract state what each side of it does |
| Arbiter.PerformBehavior | src/backpack/Robot.java:60-74 | a tick never changes the direction preference; it sets the translational velocity iff the goal is reached or an obstacle is near; any turn is pi/4 or -pi/4 |
| Arbiter.GoalStops | src/backpack/Robot.java:62-63 | when the average lux is at least 0.06, the only effect is translational velocity 0; no rotation, no turn, and the flag is unchanged |
| Arbiter.GoalExample | src/backpack/Robot.java:62-63 | lux 0.04 on the left and 0.08 on the right reach the goal exactly, and the robot stops |
| Arbiter.UnobstructedFollowsLine | src/backpack/Robot.java:64-67 | below the goal and with no near obstacle, the tick is exactly the line follower's, with no translational command |
| Arbiter.AvoiderOverrides | src/backpack/Robot.java:67-69 | when an obstacle is near and the right lux exceeds the left, both velocities come from circumnavigation; the line follower's turn and flag remain |
| Arbiter.NearObstacleCruises | src/backpack/Robot.java:67-71 | when an obstacle is near but the right lux does not exceed the left, the translational velocity becomes 0.5 and the line follower's rotational command, turn and flag remain |
| Arbiter.Start | src/backpack/Robot.java:23-53 | after start-up the flag is false and the robot goes clockwise (the field initialisers at lines 23-24), the translational velocity is 0.5 (line 52), and the rotational velocity and the total of discrete turns are unchanged |
| Arbiter.Run | src/backpack/Robot.java:60-74 | no contract of its own: the ticks one after another, each applying PerformBehavior's effect; SpeedStaysStopOrCruise and DirectionNeverChanges state what holds over a run |
| Arbiter.SpeedStaysStopOrCruise | src/backpack/Robot.java:60-74 | over any run in which circumnavigation never fires, a translational velocity of 0 or 0.5 stays 0 or 0.5 |
| Arbiter.DirectionNeverChanges | src/backpack/Robot.java:60-74 | no run of ticks changes the clockwise preference |

## Left out

- `src/backpack/Environment.java` and `src/backpack/Main.java`: the world layout and the simulator start-up hold no decision logic.
- Sensor construction (12 sonars, 8 bumpers, 11 line sensors, two light sensors, `Robot.java:37-45`): the model accepts any number of sensors. The bumper belt is built but never read.
- Simbad internals: `getQuadrantMeasurement(0, 6.28)` is the snapshot field `quadrantMin`; `oneHasHit` is "some sonar has a hit"; `hasHit`, `getMeasurement`, `getMaxRange`, `getSensorAngle` and `getRadius` are snapshot fields; the velocity setters and `rotateY` are the fields of `Effect`.
- Floating point: `double` and `float` values are modelled as exact reals. This covers the `float` cast at `Robot.java:90`, rounding, and NaN measurements, whose `<` comparisons would always be false in the scan.
- `cos`, `sin`, `atan`, `atan2` and the square root in `Point3d.distance` are parameters. No closed-form values are proved. Lemmas that need numeric facts require `CosRange`, `SoundCircular` or `SoundArc`.
- Obstacle.CircumNavigate: the model does not claim that the clockwise and counter-clockwise rotational commands have opposite signs. atan2 of a negated vector is not the negated angle, so only the tangent vectors are proved to be opposite.
- SensedPointDistance and CircumNavigateDistance rest on `SoundCircular`, the exact-real idealisation of cos, sin and the square root: cos^2 + sin^2 = 1 and sqrt(x)^2 = x hold for reals but not exactly for Java's rounded doubles, so for the program as run those distances hold only up to rounding.
- `PI` is the exact value of the double `Math.PI`, which is slightly below the true pi. `SoundArc` gives atan and atan2 the closed ranges [-PI/2, PI/2] and [-PI, PI]. No double lies between these bounds and the true ones, so every result within Java's documented ranges meets them, including the `Math.PI` returned for `atan2(+0.0, x)` with x < 0 (ExtremeArcsAdmitted).
- `ActuatorState.snapTotal` adds up the discrete `rotateY` turns only. The simulator also turns the body by integrating the rotational velocity between ticks, and that motion is not modelled.
- LineFollower.SnapAngle: the model states only the sign of the snap (negative when the right side is brighter). Which way that turns the body depends on the simulator's `rotateY` convention, whose source is not part of this model.
- The time smoothing of `getAverageLuminance` and the timing of the simulation loop belong to the host.
- The `(0,0)` case of `atan2`: the code adds no guard, so the model uses whatever the host's atan2 returns there.
- The code does not check sensor counts. With fewer than two line sensors, k is 0 and the line always counts as lost. Circumnavigation is only reached when some sonar has a hit, so the ring is non-empty there.
- Angles.WrapToPi: the code's doc comment gives the range as [-pi, pi]. The code returns values in (-pi, pi], and the model follows the code. It makes no promise for inputs outside (-3pi, 3pi] beyond congruence, because the code does a single step.

=== FILE: actuation.dfy ===
/**
 What one control tick asks of the robot's actuators. The controller talks to
 the simulator through three calls: set the rotational velocity, set the
 translational velocity, and rotate the body about its vertical axis. Within a
 tick a later velocity call replaces an earlier one and rotations add up; the
 simulator then moves the robot with whatever velocities are set, which keep
 their values from earlier ticks when the tick does not set them.
 */
module Actuation {

  datatype Option<+T> = None | Some(value: T) {
    /** The carried value, or `default` when there is none. */
    function GetOr(default: T): T {
      match this
      case Some(v) => v
      case None => default
    }
  }

  /** The net effect of the actuator calls of one tick: the last velocities
      set, if any, and the total discrete rotation, if any. */
  datatype Effect = Effect(rotational: Option<real>, translational: Option<real>, turn: Option<real>)

  /** A tick that touches no actuator. */
  const Idle: Effect := Effect(None, None, None)

  function SetRotationalVelocity(w: real): Effect {
    Effect(Some(w), None, None)
  }

  function SetTranslationalVelocity(v: real): Effect {
    Effect(None, Some(v), None)
  }

  function RotateY(angle: real): Effect {
    Effect(None, None, Some(angle))
  }

  /** A later setting of a velocity replaces an earlier one. */
  function Override(earlier: Option<real>, later: Option<real>): Option<real> {
    if later.Some? then later else earlier
  }

  /** Discrete rotations compose by adding their angles. */
  function AddTurns(earlier: Option<real>, later: Option<real>): Option<real> {
    match (earlier, later)
    case (Some(a), Some(b)) => Some(a + b)
    case (Some(_), None) => earlier
    case (None, _) => later
  }

  /** The calls of `first` followed by the calls of `second`. */
  function Then(first: Effect, second: Effect): Effect {
    Effect(Override(first.rotational, second.rotational),
           Override(first.translational, second.translational),
           AddTurns(first.turn, second.turn))
  }

  /** The actuator settings the simulator keeps between ticks: the two
      velocities, and the total of the discrete turns requested so far. The
      turning the simulator does by integrating the rotational velocity
      between ticks is not part of `snapTotal`. */
  datatype ActuatorState = ActuatorState(rotational: real, translational: real, snapTotal: real)

  /** The actuator state after the calls of one effect: a velocity not set keeps
      its value, and a discrete turn adds its angle to the total. */
  function Apply(s: ActuatorState, e: Effect): (s': ActuatorState)
    ensures e.rotational.None? ==> s'.rotational == s.rotational
    ensures e.rotational.Some? ==> s'.rotational == e.rotational.value
    ensures e.translational.None? ==> s'.translational == s.translational
    ensures e.translational.Some? ==> s'.translational == e.translational.value
    ensures e.turn.None? ==> s'.snapTotal == s.snapTotal
    ensures e.turn.Some? ==> s'.snapTotal == s.snapTotal + e.turn.value
  {
    ActuatorState(e.rotational.GetOr(s.rotational),
                  e.translational.GetOr(s.translational),
                  s.snapTotal + e.turn.GetOr(0.0))
  }

  /** Sequencing effects with `Then` is the same as issuing their calls one
      after the other against the actuators. */
  lemma ApplyThen(s: ActuatorState, first: Effect, second: Effect)
    ensures Apply(Apply(s, first), second) == Apply(s, Then(first, second))
  {
  }
}

=== FILE: angles.dfy ===
/**
 Angle normalisation used by the circumnavigation law.
 */
module Angles {
  import opened Numerics

  /** True when `a` lies in the canonical half-open range (-pi, pi]. */
  predicate Canonical(a: real) {
    -PI < a <= PI
  }

  /** True when `a` lies in (-3 pi, 3 pi], the inputs one wrapping step can handle. */
  predicate OneStepRange(a: real) {
    -3.0 * PI < a <= 3.0 * PI
  }

  /** One-step reduction of an angle: subtract a full turn above pi, add one
      at or below -pi. The result is congruent to `a` modulo a full turn, and
      canonical whenever `a` is within one extra turn of the canonical range. */
  function WrapToPi(a: real): (r: real)
    ensures r == a || r == a - 2.0 * PI || r == a + 2.0 * PI
    ensures OneStepRange(a) ==> Canonical(r)
    ensures Canonical(a) ==> r == a
  {
    if a > PI then a - PI * 2.0
    else if a <= -PI then a + PI * 2.0
    else a
  }

  /** The wrapped angle is THE canonical representative: any canonical angle
      that differs from `a` by at most one full turn is the one returned. */
  lemma WrapToPiUnique(a: real, r: real)
    requires OneStepRange(a)
    requires Canonical(r)
    requires r == a || r == a - 2.0 * PI || r == a + 2.0 * PI
    ensures WrapToPi(a) == r
  {
  }

  /** Wrapping is idempotent on the range it supports. */
  lemma WrapToPiIdempotent(a: real)
    requires OneStepRange(a)
    ensures WrapToPi(WrapToPi(a)) == WrapToPi(a)
  {
  }

  /** The upper end of the range is kept and the lower end is not: pi maps to
      itself, -pi maps to pi, and just past either end the angle wraps around. */
  lemma WrapToPiEnds()
    ensures WrapToPi(PI) == PI
    ensures WrapToPi(-PI) == PI
    ensures WrapToPi(PI + 0.1) == -PI + 0.1
    ensures WrapToPi(-PI - 0.1) == PI - 0.1
  {
  }

  /** A single step under-corrects outside (-3 pi, 3 pi]: four half-turns
      come back as two, which is not canonical. */
  lemma WrapToPiUnderCorrects()
    ensures WrapToPi(4.0 * PI) == 2.0 * PI
    ensures !Canonical(WrapToPi(4.0 * PI))
  {
  }
}

=== FILE: arbiter.dfy ===
/**
 The per-tick behaviour of the robot: stop at the goal light, otherwise follow
 the line (or the light), and let a near obstacle override the result when the
 right light sensor sees more light than the left one.
 */
module Arbiter {
  import opened Numerics
  import opened Actuation
  import opened Phototaxis
  import opened LineFollower
  import opened Obstacle

  /** Average instantaneous lux at which the goal counts as reached. */
  const GOAL_LUX: real := 0.06
  /** Sonar distance at or below which an obstacle counts as near. */
  const OBSTACLE_RANGE: real := 0.8
  /** Forward speed set at start-up and when an obstacle is near but not avoided. */
  const CRUISE: real := 0.5

  /** What the simulator's sensors report at one tick. `quadrantMin` is the
      smallest sonar measurement over the angular window [0, 6.28), which the
      simulator computes. */
  datatype Snapshot = Snapshot(
    line: seq<bool>,
    leftLight: Light,
    rightLight: Light,
    sonars: seq<Sonar>,
    maxRange: real,
    quadrantMin: real,
    radius: real)

  /** The controller's own state: whether it is tracing a line, and which way
      it goes round obstacles. */
  datatype Controller = Controller(isTracingLine: bool, clockwise: bool)

  const Initial: Controller := Controller(false, true)

  /** The average of the two instantaneous lux readings. */
  function WeighLux(s: Snapshot): (r: real)
    ensures r - s.leftLight.lux == s.rightLight.lux - r
  {
    (s.leftLight.lux + s.rightLight.lux) / 2.0
  }

  predicate GoalReached(s: Snapshot) {
    WeighLux(s) >= GOAL_LUX
  }

  predicate OneHasHit(ring: seq<Sonar>) {
    exists i :: 0 <= i < |ring| && ring[i].hit
  }

  /** Some sonar sees an obstacle and the nearest measurement is within reach. */
  predicate ObstacleNear(s: Snapshot) {
    OneHasHit(s.sonars) && s.quadrantMin <= OBSTACLE_RANGE
  }

  /** The circumnavigation behaviour takes over this tick. */
  predicate AvoiderFires(s: Snapshot) {
    !GoalReached(s) && ObstacleNear(s) && s.rightLight.lux > s.leftLight.lux
  }

  /** The outcome of one tick: the actuator effect and the next controller state. */
  datatype Tick = Tick(effect: Effect, controller: Controller)

  /** Start-up sets the cruise speed and touches nothing else. */
  function InitBehavior(): (e: Effect)
    ensures forall a :: Apply(a, e) == a.(translational := CRUISE)
  {
    SetTranslationalVelocity(CRUISE)
  }

  /** One control tick. */
  function PerformBehavior(c: Controller, s: Snapshot, n: Numerics): (t: Tick)
    ensures t.controller.clockwise == c.clockwise
    ensures t.effect.translational.None? <==> !GoalReached(s) && !ObstacleNear(s)
    ensures t.effect.turn.Some? ==> t.effect.turn.value == PI / 4.0 || t.effect.turn.value == -PI / 4.0
  {
    if GoalReached(s) then
      Tick(SetTranslationalVelocity(0.0), c)
    else
      var line := FollowTheLine(s.line, s.leftLight, s.rightLight, c.isTracingLine);
      var next := c.(isTracingLine := line.tracing);
      if ObstacleNear(s) then
        if s.rightLight.lux > s.leftLight.lux then
          Tick(Then(line.effect, CircumNavigate(s.sonars, s.maxRange, s.radius, c.clockwise, n)), next)
        else
          Tick(Then(line.effect, SetTranslationalVelocity(CRUISE)), next)
      else
        Tick(line.effect, next)
  }

  /** At the goal the robot stops: the translational velocity becomes 0, the
      rotational velocity and the discrete turns are untouched, and so is the tracing flag. */
  lemma GoalStops(c: Controller, s: Snapshot, n: Numerics)
    requires GoalReached(s)
    ensures var t := PerformBehavior(c, s, n);
      && t.controller == c
      && forall a :: Apply(a, t.effect) == a.(translational := 0.0)
  {
  }

  /** Left lux 0.04 and right lux 0.08 average exactly the goal threshold. */
  lemma GoalExample(c: Controller, s: Snapshot, n: Numerics)
    requires s.leftLight.lux == 0.04 && s.rightLight.lux == 0.08
    ensures PerformBehavior(c, s, n).effect == Effect(None, Some(0.0), None)
  {
  }

  /** Away from the goal and from obstacles the tick is exactly the line
      follower's, which never touches the translational velocity. */
  lemma UnobstructedFollowsLine(c: Controller, s: Snapshot, n: Numerics)
    requires !GoalReached(s) && !ObstacleNear(s)
    ensures var t := PerformBehavior(c, s, n);
      var line := FollowTheLine(s.line, s.leftLight, s.rightLight, c.isTracingLine);
      && t.effect == line.effect
      && t.effect.translational.None?
      && t.controller.isTracingLine == line.tracing
  {
  }

  /** When the avoider fires, both velocities are the circumnavigation
      command's; only a snap turn of the line follower survives, and the
      tracing flag is still the line follower's. */
  lemma AvoiderOverrides(c: Controller, s: Snapshot, n: Numerics)
    requires AvoiderFires(s)
    ensures |s.sonars| > 0
    ensures var t := PerformBehavior(c, s, n);
      var line := FollowTheLine(s.line, s.leftLight, s.rightLight, c.isTracingLine);
      var avoid := CircumNavigate(s.sonars, s.maxRange, s.radius, c.clockwise, n);
      && t.effect.rotational == avoid.rotational
      && t.effect.translational == avoid.translational
      && t.effect.turn == line.effect.turn
      && t.controller.isTracingLine == line.tracing
  {
  }

  /** A near obstacle without the light asymmetry only restores the cruise
      speed; the line follower's rotational command stands. */
  lemma NearObstacleCruises(c: Controller, s: Snapshot, n: Numerics)
    requires !GoalReached(s) && ObstacleNear(s) && s.rightLight.lux <= s.leftLight.lux
    ensures var t := PerformBehavior(c, s, n);
      var line := FollowTheLine(s.line, s.leftLight, s.rightLight, c.isTracingLine);
      && t.effect.translational == Some(CRUISE)
      && t.effect.rotational == line.effect.rotational
      && t.effect.turn == line.effect.turn
      && t.controller.isTracingLine == line.tracing
  {
  }

  /** The robot as the simulator sees it between ticks. */
  datatype Robot = Robot(controller: Controller, actuators: ActuatorState)

  /** The robot after start-up, from the actuator state the simulator begins with. */
  function Start(a: ActuatorState): (r: Robot)
    ensures r.controller == Initial && !r.controller.isTracingLine
    ensures r.actuators.translational == CRUISE
    ensures r.actuators.rotational == a.rotational && r.actuators.snapTotal == a.snapTotal
  {
    Robot(Initial, Apply(a, InitBehavior()))
  }

  /** The robot after one tick per snapshot, in order. */
  function Run(r: Robot, ticks: seq<Snapshot>, n: Numerics): Robot
    decreases |ticks|
  {
    if ticks == [] then r
    else
      var t := PerformBehavior(r.controller, ticks[0], n);
      Run(Robot(t.controller, Apply(r.actuators, t.effect)), ticks[1..], n)
  }

  /** Only circumnavigation sets a forward speed other than stop or cruise:
      while it never fires, the speed stays at 0 or at the cruise speed. */
  lemma {:induction false} SpeedStaysStopOrCruise(r: Robot, ticks: seq<Snapshot>, n: Numerics)
    requires r.actuators.translational == 0.0 || r.actuators.translational == CRUISE
    requires forall i :: 0 <= i < |ticks| ==> !AvoiderFires(ticks[i])
    ensures var v := Run(r, ticks, n).actuators.translational;
      v == 0.0 || v == CRUISE
    decreases |ticks|
  {
    if ticks != [] {
      var t := PerformBehavior(r.controller, ticks[0], n);
      assert !AvoiderFires(ticks[0]);
      SpeedStaysStopOrCruise(Robot(t.controller, Apply(r.actuators, t.effect)), ticks[1..], n);
    }
  }

  /** The direction of travel around obstacles is never changed by a tick. */
  lemma {:induction false} DirectionNeverChanges(r: Robot, ticks: seq<Snapshot>, n: Numerics)
    ensures Run(r, ticks, n).controller.clockwise == r.controller.clockwise
    decreases |ticks|
  {
    if ticks != [] {
      var t := PerformBehavior(r.controller, ticks[0], n);
      DirectionNeverChanges(Robot(t.controller, Apply(r.actuators, t.effect)), ticks[1..], n);
    }
  }
}

=== FILE: line_follower.dfy ===
/**
 Line following over the forward array of binary line sensors, falling back to
 light seeking when no line is seen. The flag `tracing` is the one piece of
 controller state that survives from one tick to the next.
 */
module LineFollower {
  import opened Numerics
  import opened Actuation
  import opened Phototaxis

  /** The counters of the sensing loop: hits in the left half, hits in the
      mirrored right half, and iterations done. */
  datatype Counts = Counts(left: nat, right: nat, k: nat)

  function Bit(b: bool): nat {
    if b then 1 else 0
  }

  /** The counters after the first `i` iterations of the loop that walks
      `hits` from index 0 inward (the left counter) and from index
      |hits|-1 inward (the right counter). */
  function HalfCounts(hits: seq<bool>, i: nat): (c: Counts)
    requires i <= |hits| / 2
    ensures c.k == i
    ensures c.left <= c.k && c.right <= c.k
  {
    if i == 0 then Counts(0, 0, 0)
    else
      var c := HalfCounts(hits, i - 1);
      Counts(c.left + Bit(hits[i - 1]), c.right + Bit(hits[|hits| - i]), c.k + 1)
  }

  /** The counters once the loop has run over half the array (rounded down). */
  function Sense(hits: seq<bool>): (c: Counts)
    ensures c.k == |hits| / 2
    ensures c.left <= c.k && c.right <= c.k
  {
    HalfCounts(hits, |hits| / 2)
  }

  /** The left counter is the number of hits among the first `i` sensors and the
      right counter the number among the last `i`. */
  lemma HalfCountsCountHits(hits: seq<bool>, i: nat)
    requires i <= |hits| / 2
    ensures HalfCounts(hits, i).left == multiset(hits[..i])[true]
    ensures HalfCounts(hits, i).right == multiset(hits[|hits| - i..])[true]
  {
    LeftCountsHits(hits, i);
    RightCountsHits(hits, i);
  }

  lemma {:induction false} LeftCountsHits(hits: seq<bool>, i: nat)
    requires i <= |hits| / 2
    ensures HalfCounts(hits, i).left == multiset(hits[..i])[true]
  {
    if i > 0 {
      LeftCountsHits(hits, i - 1);
      CountStep(hits, i);
      TakeLast(hits, i);
      HitsOfAppend(hits[..i - 1], hits[i - 1]);
    }
  }

  lemma {:induction false} RightCountsHits(hits: seq<bool>, i: nat)
    requires i <= |hits| / 2
    ensures HalfCounts(hits, i).right == multiset(hits[|hits| - i..])[true]
  {
    if i > 0 {
      RightCountsHits(hits, i - 1);
      CountStep(hits, i);
      SuffixHits(hits, i);
    }
  }

  /** The hits among the last `i` sensors are those among the last `i - 1`
      plus the sensor just before them. */
  lemma SuffixHits(s: seq<bool>, i: nat)
    requires 0 < i <= |s|
    ensures multiset(s[|s| - i..])[true] == Bit(s[|s| - i]) + multiset(s[|s| - (i - 1)..])[true]
  {
    DropFirst(s, |s| - i);
    HitsOfPrepend(s[|s| - i], s[|s| - i + 1..]);
  }

  /** One iteration of the loop adds one sensor to each counter. */
  lemma CountStep(hits: seq<bool>, i: nat)
    requires 0 < i <= |hits| / 2
    ensures HalfCounts(hits, i).left == HalfCounts(hits, i - 1).left + Bit(hits[i - 1])
    ensures HalfCounts(hits, i).right == HalfCounts(hits, i - 1).right + Bit(hits[|hits| - i])
  {
  }

  lemma TakeLast(s: seq<bool>, i: nat)
    requires 0 < i <= |s|
    ensures s[..i] == s[..i - 1] + [s[i - 1]]
  {
  }

  lemma DropFirst(s: seq<bool>, j: nat)
    requires j < |s|
    ensures s[j..] == [s[j]] + s[j + 1..]
  {
  }

  lemma HitsOfAppend(init: seq<bool>, x: bool)
    ensures multiset(init + [x])[true] == multiset(init)[true] + Bit(x)
  {
  }

  lemma HitsOfPrepend(x: bool, rest: seq<bool>)
    ensures multiset([x] + rest)[true] == Bit(x) + multiset(rest)[true]
  {
  }

  /** The four situations the line follower distinguishes, in the order it
      tests them. */
  datatype Situation =
    | Asymmetric        // more hits on one side than the other
    | Lost              // no hits in either half
    | Wide              // equal, nonzero, and nearly the whole array: an intersection
    | SymmetricPartial  // equal, nonzero, and not nearly the whole array

  function Classify(c: Counts, m: nat): Situation {
    if c.left != c.right then Asymmetric
    else if c.left == 0 then Lost
    else if c.left + c.right > m - 3 then Wide
    else SymmetricPartial
  }

  /** Proportional steering: positive when the left counter is the larger. */
  function LineSteer(c: Counts): real
    requires c.k > 0
  {
    (c.left as real - c.right as real) / c.k as real * 5.0
  }

  /** The fixed snap turn over a wide marking: an eighth of a turn, negative
      when the right averaged luminance is higher and positive otherwise. */
  function SnapAngle(left: Light, right: Light): real {
    if right.averageLuminance > left.averageLuminance then -PI / 4.0 else PI / 4.0
  }

  /** The outcome of one tick of a behaviour: its actuator effect and the new
      value of the tracing flag. */
  datatype Step = Step(effect: Effect, tracing: bool)

  /** The four-way decision on the counters; `tracing` is the flag inherited
      from the previous tick. */
  function Decide(c: Counts, m: nat, left: Light, right: Light, tracing: bool): Step
    requires c.left <= c.k && c.right <= c.k
  {
    match Classify(c, m)
    case Asymmetric => Step(SetRotationalVelocity(LineSteer(c)), true)
    case Lost => Step(SetRotationalVelocity(0.0), false)
    case Wide => Step(RotateY(SnapAngle(left, right)), true)
    case SymmetricPartial => Step(Idle, tracing)
  }

  /** One tick of line following: decide on the counters, then seek light if
      the decision leaves the robot not tracing a line. */
  function FollowTheLine(hits: seq<bool>, left: Light, right: Light, tracing: bool): (r: Step)
    ensures r.effect.translational.None?
    ensures !r.tracing ==> r.effect == FollowTheLight(left, right)
    ensures r.tracing <==>
      var c := Sense(hits);
      c.left != c.right || (c.left > 0 && (c.left + c.right > |hits| - 3 || tracing))
    ensures r.effect.rotational.None? <==>
      var c := Sense(hits);
      c.left == c.right && c.left > 0 && (c.left + c.right > |hits| - 3 || tracing)
    ensures r.effect.turn.Some? ==> r.effect.turn.value == PI / 4.0 || r.effect.turn.value == -PI / 4.0
  {
    var d := Decide(Sense(hits), |hits|, left, right, tracing);
    if d.tracing then d else Step(Then(d.effect, FollowTheLight(left, right)), false)
  }

  /** The steering command is at most 5 in magnitude and has the sign of the
      difference between the left and right counts. */
  lemma LineSteerBounds(c: Counts)
    requires c.left <= c.k && c.right <= c.k && c.left != c.right
    ensures -5.0 <= LineSteer(c) <= 5.0
    ensures LineSteer(c) > 0.0 <==> c.left > c.right
    ensures LineSteer(c) < 0.0 <==> c.left < c.right
  {
    QuotientBounds(c.left as real - c.right as real, c.k as real);
  }

  /** A difference no larger than the divisor in magnitude gives a quotient
      in [-1, 1] with the difference's sign. */
  lemma QuotientBounds(diff: real, k: real)
    requires k > 0.0 && -k <= diff <= k
    ensures -1.0 <= diff / k <= 1.0
    ensures diff > 0.0 ==> diff / k > 0.0
    ensures diff < 0.0 ==> diff / k < 0.0
  {
  }

  /** Unequal halves: the only command is the proportional steering
      (left - right) / k * 5, at most 5 either way, positive exactly when the
      left half has more hits and negative exactly when the right half has;
      the robot is now tracing the line. */
  lemma AsymmetricSteers(hits: seq<bool>, left: Light, right: Light, tracing: bool)
    requires Classify(Sense(hits), |hits|) == Asymmetric
    ensures var r := FollowTheLine(hits, left, right, tracing);
      && r.tracing
      && r.effect.rotational.Some?
      && r.effect == SetRotationalVelocity(LineSteer(Sense(hits)))
      && -5.0 <= r.effect.rotational.value <= 5.0
      && (r.effect.rotational.value > 0.0 <==> Sense(hits).left > Sense(hits).right)
      && (r.effect.rotational.value < 0.0 <==> Sense(hits).left < Sense(hits).right)
      && r.effect.turn.None?
  {
    LineSteerBounds(Sense(hits));
  }

  /** No hits at all: the line is lost, the flag drops, and the rotational
      velocity finally commanded is the light-seeking one (the zero set first
      is overwritten). */
  lemma LostSeeksLight(hits: seq<bool>, left: Light, right: Light, tracing: bool)
    requires Classify(Sense(hits), |hits|) == Lost
    ensures var r := FollowTheLine(hits, left, right, tracing);
      && !r.tracing
      && r.effect == Effect(Some(PhototaxisRate(left, right)), None, None)
  {
  }

  /** Nearly the whole array sees the line: snap an eighth of a turn,
      by a negative angle exactly when the right side is brighter, keep tracing, and
      leave the rotational velocity alone. */
  lemma WideSnaps(hits: seq<bool>, left: Light, right: Light, tracing: bool)
    requires Classify(Sense(hits), |hits|) == Wide
    ensures var r := FollowTheLine(hits, left, right, tracing);
      && r.tracing
      && r.effect.rotational.None?
      && (right.averageLuminance > left.averageLuminance ==> r.effect.turn == Some(-PI / 4.0))
      && (right.averageLuminance <= left.averageLuminance ==> r.effect.turn == Some(PI / 4.0))
  {
  }

  /** Equal, partial coverage: the flag keeps its old value, and the robot seeks
      light exactly when it was not tracing; otherwise nothing is commanded. */
  lemma SymmetricPartialKeepsFlag(hits: seq<bool>, left: Light, right: Light, tracing: bool)
    requires Classify(Sense(hits), |hits|) == SymmetricPartial
    ensures var r := FollowTheLine(hits, left, right, tracing);
      && r.tracing == tracing
      && (tracing ==> r.effect == Idle)
      && (!tracing ==> r.effect == FollowTheLight(left, right))
  {
  }

  /** Outside the symmetric partial case the inherited flag has no influence on
      the tick. */
  lemma InheritedFlagMattersOnlyWhenSymmetricPartial(hits: seq<bool>, left: Light, right: Light)
    requires Classify(Sense(hits), |hits|) != SymmetricPartial
    ensures FollowTheLine(hits, left, right, true) == FollowTheLine(hits, left, right, false)
  {
  }

  /** The sensor array read right to left. */
  function Reverse(s: seq<bool>): (r: seq<bool>)
    ensures |r| == |s|
    ensures forall j :: 0 <= j < |s| ==> r[j] == s[|s| - 1 - j]
  {
    seq(|s|, j requires 0 <= j < |s| => s[|s| - 1 - j])
  }

  /** Reading the array mirrored swaps the two counters at every iteration. */
  lemma {:induction false} MirrorSwapsCounts(hits: seq<bool>, i: nat)
    requires i <= |hits| / 2
    ensures var c := HalfCounts(hits, i);
      HalfCounts(Reverse(hits), i) == Counts(c.right, c.left, i)
  {
    if i > 0 {
      MirrorSwapsCounts(hits, i - 1);
    }
  }

  /** A mirrored line array produces the opposite steering command. */
  lemma MirrorReversesSteering(hits: seq<bool>, left: Light, right: Light, tracing: bool)
    requires Classify(Sense(hits), |hits|) == Asymmetric
    ensures FollowTheLine(Reverse(hits), left, right, tracing).effect.rotational.Some?
    ensures FollowTheLine(Reverse(hits), left, right, tracing).effect.rotational.value
         == -FollowTheLine(hits, left, right, tracing).effect.rotational.value
  {
    MirrorSwapsCounts(hits, |hits| / 2);
    var c := Sense(hits);
    assert Sense(Reverse(hits)) == Counts(c.right, c.left, c.k);
    LineSteerSwap(c);
  }

  /** Swapping the counters negates the steering command. */
  lemma LineSteerSwap(c: Counts)
    requires c.k > 0
    ensures LineSteer(Counts(c.right, c.left, c.k)) == -LineSteer(c)
  {
    var diff := c.left as real - c.right as real;
    assert (-diff) / c.k as real == -(diff / c.k as real);
  }

  /** Eight sensors with three hits in the first half and one in the second
      steer at (3 - 1) / 4 * 5 = 2.5. */
  lemma AsymmetricExample()
    ensures var hits := [true, true, true, false, false, false, true, false];
      Sense(hits) == Counts(3, 1, 4)
      && FollowTheLine(hits, Light(0.0, 0.0), Light(0.0, 0.0), false).effect.rotational == Some(2.5)
  {
    var hits := [true, true, true, false, false, false, true, false];
    assert Sense(hits) == Counts(3, 1, 4);
    assert LineSteer(Counts(3, 1, 4)) == 2.5;
  }

  /** Eleven sensors with ten hits form a wide marking (10 > 11 - 3); with the
      right side brighter the robot snaps by -pi/4. */
  lemma WideExample()
    ensures var hits := [true, true, true, true, true, false, true, true, true, true, true];
      Classify(Sense(hits), |hits|) == Wide
      && FollowTheLine(hits, Light(0.0, 0.2), Light(0.0, 0.7), false) == Step(RotateY(-PI / 4.0), true)
  {
    var hits := [true, true, true, true, true, false, true, true, true, true, true];
    assert Sense(hits) == Counts(5, 5, 5);
    WideSnaps(hits, Light(0.0, 0.2), Light(0.0, 0.7), false);
  }
}

=== FILE: numerics.dfy ===
/**
 The host's floating-point library, seen by the controller only through the
 values it returns. The trigonometric functions and the square root are
 parameters of the model rather than definitions: the controller's structure
 is proved for every `Numerics` record, and the facts that need numeric
 behaviour say which properties of the library they rely on
 (`SoundCircular`, `SoundArc`).
 */
module Numerics {

  /** The double constant the controller uses for pi (Java's `Math.PI`),
      written out exactly. It is slightly below the true pi; no double lies
      between the two, so a library result bounded by pi is bounded by it. */
  const PI: real := 3.141592653589793115997963468544185161590576171875

  /** The library calls the controller makes: cos, sin, atan, atan2 and the
      square root behind a Euclidean distance. */
  datatype Numerics = Numerics(
    cos: real -> real,
    sin: real -> real,
    atan: real -> real,
    atan2: (real, real) -> real,
    sqrt: real -> real)

  /** The range of cos, [-1, 1], which rounded double results also meet. */
  ghost predicate CosRange(n: Numerics) {
    forall x :: -1.0 <= n.cos(x) <= 1.0
  }

  /** The properties of cos, sin and the square root that the distance
      lemmas rely on: the range of cos, the Pythagorean identity, and the
      square root of a non-negative number. The last two are the exact-real
      idealisation of the library: rounded double results do not meet them
      exactly (cos(1)^2 + sin(1)^2 and sqrt(2)^2 miss by an ulp or so). */
  ghost predicate SoundCircular(n: Numerics) {
    && CosRange(n)
    && (forall x :: n.cos(x) * n.cos(x) + n.sin(x) * n.sin(x) == 1.0)
    && (forall x :: x >= 0.0 ==> n.sqrt(x) >= 0.0 && n.sqrt(x) * n.sqrt(x) == x)
  }

  /** The properties of atan and atan2 that the heading lemmas rely on: the
      closed ranges the library documents, [-pi/2, pi/2] and [-pi, pi], and
      the sign of atan. Since no double lies between `PI` and the true pi,
      a double result inside the true range is inside these. */
  ghost predicate SoundArc(n: Numerics) {
    && (forall x :: -PI / 2.0 <= n.atan(x) <= PI / 2.0)
    && (forall x :: x > 0.0 ==> n.atan(x) > 0.0)
    && (forall x :: x < 0.0 ==> n.atan(x) < 0.0)
    && (forall y, x :: -PI <= n.atan2(y, x) <= PI)
  }

  /** The extreme values the library returns, atan at +-pi/2 and atan2 at
      pi (as for atan2(+0.0, -1.0)), are within `SoundArc`. */
  lemma ExtremeArcsAdmitted()
    ensures SoundArc(Numerics(
      x => x,
      x => x,
      x => if x > 0.0 then PI / 2.0 else if x < 0.0 then -PI / 2.0 else 0.0,
      (y, x) => PI,
      x => x))
  {
  }
}

=== FILE: obstacle.dfy ===
/**
 Obstacle circumnavigation: pick the sonar that measures the nearest
 obstacle, turn its reading into a point around the robot, and steer along the
 tangent of a circle about that point while holding a standoff distance.
 */
module Obstacle {
  import opened Numerics
  import opened Angles
  import opened Actuation

  /** Gains of the circumnavigation law and the standoff distance. */
  const K1: real := 5.0
  const K2: real := 0.8
  const K3: real := 1.0
  const SAFETY: real := 0.8

  /** One sonar of the ring: its fixed mounting angle, its measurement and
      whether it sees an obstacle within range. */
  datatype Sonar = Sonar(angle: real, measurement: real, hit: bool)

  /** A point in the robot's local frame; y is vertical and always 0 here. */
  datatype Point = Point(x: real, y: real, z: real)

  function Measurements(ring: seq<Sonar>): (ms: seq<real>)
    ensures |ms| == |ring|
    ensures forall i :: 0 <= i < |ring| ==> ms[i] == ring[i].measurement
  {
    seq(|ring|, i requires 0 <= i < |ring| => ring[i].measurement)
  }

  /** `m` is the first index, among the first `n`, whose measurement is no
      larger than any other among the first `n`. */
  ghost predicate IsFirstMinimum(ms: seq<real>, n: nat, m: nat)
    requires n <= |ms|
  {
    && m < n
    && (forall j :: 0 <= j < n ==> ms[m] <= ms[j])
    && (forall j :: 0 <= j < m ==> ms[m] < ms[j])
  }

  /** The scan for the nearest reading from index `i` on, `min` being the best
      index found among the first `i`; a later index wins only when strictly
      smaller. */
  function NearestFrom(ms: seq<real>, i: nat, min: nat): (r: nat)
    requires min < i <= |ms|
    requires IsFirstMinimum(ms, i, min)
    ensures IsFirstMinimum(ms, |ms|, r)
    decreases |ms| - i
  {
    if i == |ms| then min
    else NearestFrom(ms, i + 1, if ms[i] < ms[min] then i else min)
  }

  /** The index of the nearest reading, first occurrence on ties. */
  function Nearest(ms: seq<real>): (r: nat)
    requires |ms| > 0
    ensures r < |ms|
    ensures forall j :: 0 <= j < |ms| ==> ms[r] <= ms[j]
    ensures forall j :: 0 <= j < r ==> ms[r] < ms[j]
  {
    NearestFrom(ms, 1, 0)
  }

  /** There is only one first minimum, so the scan's answer is determined by
      the measurements alone. */
  lemma FirstMinimumUnique(ms: seq<real>, a: nat, b: nat)
    requires IsFirstMinimum(ms, |ms|, a) && IsFirstMinimum(ms, |ms|, b)
    ensures a == b
  {
    assert ms[a] == ms[b];
  }

  /** A reading strictly nearer than every other is the one selected. */
  lemma StrictMinimumSelected(ms: seq<real>, i: nat)
    requires i < |ms|
    requires forall j :: 0 <= j < |ms| && j != i ==> ms[i] < ms[j]
    ensures Nearest(ms) == i
  {
    FirstMinimumUnique(ms, Nearest(ms), i);
  }

  /** The distance from the robot's centre to what the sonar sees: the
      robot's radius plus the measurement on a hit, plus the full range
      otherwise. */
  function SensedRange(s: Sonar, maxRange: real, radius: real): real {
    radius + (if s.hit then s.measurement else maxRange)
  }

  /** The sensed point at the sonar's angle and the sensed range. */
  function SensedPoint(s: Sonar, maxRange: real, radius: real, n: Numerics): (p: Point)
    ensures p.y == 0.0
  {
    var v := SensedRange(s, maxRange, radius);
    Point(v * n.cos(s.angle), 0.0, v * n.sin(s.angle))
  }

  function SquaredNorm(p: Point): real {
    p.x * p.x + p.y * p.y + p.z * p.z
  }

  function Dot(p: Point, q: Point): real {
    p.x * q.x + p.y * q.y + p.z * q.z
  }

  function Negate(p: Point): Point {
    Point(-p.x, -p.y, -p.z)
  }

  /** The distance from the robot's centre to a point. */
  function Distance(p: Point, n: Numerics): real {
    n.sqrt(SquaredNorm(p))
  }

  /** The sensed point lies at the sensed range from the robot's centre. */
  lemma SensedPointDistance(s: Sonar, maxRange: real, radius: real, n: Numerics)
    requires SoundCircular(n)
    requires SensedRange(s, maxRange, radius) >= 0.0
    ensures SquaredNorm(SensedPoint(s, maxRange, radius, n)) == SensedRange(s, maxRange, radius) * SensedRange(s, maxRange, radius)
    ensures Distance(SensedPoint(s, maxRange, radius, n), n) == SensedRange(s, maxRange, radius)
  {
    var v := SensedRange(s, maxRange, radius);
    var c, sn := n.cos(s.angle), n.sin(s.angle);
    assert c * c + sn * sn == 1.0;
    calc {
      SquaredNorm(SensedPoint(s, maxRange, radius, n));
      (v * c) * (v * c) + 0.0 * 0.0 + (v * sn) * (v * sn);
      v * v * (c * c + sn * sn);
      v * v;
    }
    SqrtOfSquare(v, n);
  }

  /** The library's square root recovers a non-negative number from its square. */
  lemma SqrtOfSquare(v: real, n: Numerics)
    requires SoundCircular(n)
    requires v >= 0.0
    ensures n.sqrt(v * v) == v
  {
    var r := n.sqrt(v * v);
    assert r >= 0.0 && r * r == v * v;
    SquareRootUnique(r, v);
  }

  /** Two non-negative reals with the same square are equal. */
  lemma SquareRootUnique(r: real, v: real)
    requires r >= 0.0 && v >= 0.0 && r * r == v * v
    ensures r == v
  {
    assert (r - v) * (r + v) == 0.0;
    if r + v > 0.0 {
      ZeroFactor(r - v, r + v);
    }
  }

  lemma ZeroFactor(x: real, q: real)
    requires q > 0.0 && x * q == 0.0
    ensures x == 0.0
  {
  }

  /** The radial vector turned a quarter turn in the plane, one way or the
      other depending on the direction of travel around the obstacle. */
  function Tangent(p: Point, clockwise: bool): (t: Point)
    ensures t.y == 0.0
    ensures Dot(t, p) == 0.0
    ensures SquaredNorm(t) == p.x * p.x + p.z * p.z
  {
    if clockwise then Point(-p.z, 0.0, p.x) else Point(p.z, 0.0, -p.x)
  }

  /** The two directions of travel give opposite tangents, each perpendicular
      to the radial vector of a planar point and of the same length. */
  lemma TangentGeometry(p: Point, clockwise: bool)
    requires p.y == 0.0
    ensures Tangent(p, true) == Negate(Tangent(p, false))
    ensures Dot(Tangent(p, clockwise), p) == 0.0
    ensures SquaredNorm(Tangent(p, clockwise)) == SquaredNorm(p)
  {
  }

  /** The restoring part of the heading: positive (toward the obstacle, for
      counter-clockwise travel) beyond the standoff distance, mirrored for
      clockwise travel. */
  function RestoringTerm(d: real, clockwise: bool, n: Numerics): real {
    var phRot := n.atan(K3 * (d - SAFETY));
    if clockwise then -phRot else phRot
  }

  /** The restoring term is bounded by a quarter turn, the clockwise term is
      the negated counter-clockwise one, and its sign says on which side of the
      standoff distance the robot is. */
  lemma RestoringTermSign(d: real, clockwise: bool, n: Numerics)
    requires SoundArc(n)
    ensures -PI / 2.0 <= RestoringTerm(d, clockwise, n) <= PI / 2.0
    ensures RestoringTerm(d, true, n) == -RestoringTerm(d, false, n)
    ensures d > SAFETY ==> (RestoringTerm(d, false, n) > 0.0 && RestoringTerm(d, true, n) < 0.0)
    ensures d < SAFETY ==> (RestoringTerm(d, false, n) < 0.0 && RestoringTerm(d, true, n) > 0.0)
  {
  }

  /** The heading the circumnavigation law steers to, relative to the
      robot's forward direction. */
  function ReferenceHeading(ring: seq<Sonar>, maxRange: real, radius: real, clockwise: bool, n: Numerics): (phRef: real)
    requires |ring| > 0
    ensures SoundArc(n) ==> Canonical(phRef)
  {
    var p := SensedPoint(ring[Nearest(Measurements(ring))], maxRange, radius, n);
    var v := Tangent(p, clockwise);
    var phLin := n.atan2(v.z, v.x);
    WrapToPi(phLin + RestoringTerm(Distance(p, n), clockwise, n))
  }

  /** The circumnavigation command: rotate in proportion to the reference
      heading, drive at a speed that shrinks (and reverses past a quarter turn)
      as the heading grows. Both velocities are set; no discrete turn. */
  function CircumNavigate(ring: seq<Sonar>, maxRange: real, radius: real, clockwise: bool, n: Numerics): (e: Effect)
    requires |ring| > 0
    ensures e.rotational.Some? && e.translational.Some? && e.turn.None?
  {
    var phRef := ReferenceHeading(ring, maxRange, radius, clockwise, n);
    Effect(Some(K1 * phRef), Some(K2 * n.cos(phRef)), None)
  }

  /** The reference heading is canonical: the sum it wraps lies within
      [-3/2 pi, 3/2 pi], inside the range one wrapping step handles. So the
      rotational command is in (-5 pi, 5 pi] and the speed within 0.8 of zero. */
  lemma CircumNavigateBounded(ring: seq<Sonar>, maxRange: real, radius: real, clockwise: bool, n: Numerics)
    requires |ring| > 0
    requires CosRange(n) && SoundArc(n)
    ensures Canonical(ReferenceHeading(ring, maxRange, radius, clockwise, n))
    ensures var e := CircumNavigate(ring, maxRange, radius, clockwise, n);
      && -K1 * PI < e.rotational.value <= K1 * PI
      && -K2 <= e.translational.value <= K2
  {
    var p := SensedPoint(ring[Nearest(Measurements(ring))], maxRange, radius, n);
    var v := Tangent(p, clockwise);
    var phLin := n.atan2(v.z, v.x);
    RestoringTermSign(Distance(p, n), clockwise, n);
    assert OneStepRange(phLin + RestoringTerm(Distance(p, n), clockwise, n));
  }

  /** The range that drives the restoring term is the robot's radius plus the
      nearest sonar's measurement when that sonar has a hit, and plus the
      sonar's maximum range otherwise. */
  lemma CircumNavigateDistance(ring: seq<Sonar>, maxRange: real, radius: real, n: Numerics)
    requires |ring| > 0
    requires SoundCircular(n)
    requires radius >= 0.0 && maxRange >= 0.0
    requires forall i :: 0 <= i < |ring| ==> ring[i].measurement >= 0.0
    ensures var s := ring[Nearest(Measurements(ring))];
      var p := SensedPoint(s, maxRange, radius, n);
      && (s.hit ==> Distance(p, n) == radius + s.measurement)
      && (!s.hit ==> Distance(p, n) == radius + maxRange)
  {
    var s := ring[Nearest(Measurements(ring))];
    SensedPointDistance(s, maxRange, radius, n);
  }
}

=== FILE: phototaxis.dfy ===
/**
 Light seeking: steer toward the side whose light sensor sees more light.
 */
module Phototaxis {
  import opened Numerics
  import opened Actuation

  /** One light sensor's reading: the instantaneous lux and the luminance
      averaged over time by the simulator. */
  datatype Light = Light(lux: real, averageLuminance: real)

  /** The proportional light-seeking law: the difference of the averaged
      luminances, scaled by pi/4, an eighth of a turn. */
  function PhototaxisRate(left: Light, right: Light): (w: real)
    ensures w > 0.0 <==> left.averageLuminance > right.averageLuminance
    ensures w < 0.0 <==> left.averageLuminance < right.averageLuminance
    ensures w == 0.0 <==> left.averageLuminance == right.averageLuminance
  {
    (left.averageLuminance - right.averageLuminance) * PI / 4.0
  }

  /** The light-seeking behaviour sets the rotational velocity and nothing else. */
  function FollowTheLight(left: Light, right: Light): (e: Effect)
    ensures e.rotational == Some(PhototaxisRate(left, right))
    ensures e.translational.None? && e.turn.None?
  {
    SetRotationalVelocity(PhototaxisRate(left, right))
  }

  /** Swapping the two sensors reverses the steering. */
  lemma PhototaxisAntisymmetric(left: Light, right: Light)
    ensures PhototaxisRate(right, left) == -PhototaxisRate(left, right)
  {
  }

  /** With luminances in [0, 1] the steering rate is at most pi/4 (an eighth
      of a turn) per unit time in either direction. */
  lemma PhototaxisBounded(left: Light, right: Light)
    requires 0.0 <= left.averageLuminance <= 1.0
    requires 0.0 <= right.averageLuminance <= 1.0
    ensures -PI / 4.0 <= PhototaxisRate(left, right) <= PI / 4.0
  {
  }

  /** A left luminance of 0.8 against 0.2 on the right gives the rate 0.6
      times pi/4. */
  lemma PhototaxisExample()
    ensures PhototaxisRate(Light(0.0, 0.8), Light(0.0, 0.2)) == 0.6 * PI / 4.0
  {
  }
}
